=== FILE: README.md ===
# DiversityOptimization core, modelled in Dafny

This project models the two pieces of DiversityOptimization that hold its
algorithmic logic. It uses exact real arithmetic throughout.

- `sparse_nnls` (module `Nnls`, file `nnls.dfy`) is a Lawson–Hanson active-set
  solver for "minimise ||C x − d|| subject to x ≥ 0". Its state is:
  - the passive mask P: columns allowed to be positive;
  - the active mask Z: columns held at 0;
  - the primal vector x;
  - one inner-iteration counter, shared by all outer rounds.

  Each outer round moves the active column with the largest multiplier
  `w = Cᵀ(d − C x)` into P. It then solves least squares on the passive
  columns. An inner loop steps x toward that solution and hands the columns
  it drives to (near) zero back to Z. The run returns normally when no active
  multiplier exceeds `tol`. It returns early, with the last unconstrained
  answer, once the counter passes `itmax_factor · n`.
- `MinDivLP` (module `MinDiv`, file `mindiv.dfy`) assembles the solver's input
  and post-processes its output:
  - it takes the support mask B of `A_large`;
  - it builds the weights `f = 1 / ((Bᵀ y_large)^(1−q) + 0.0001)`;
  - it stacks `C = [fᵀ; const·A_small]` and `d = [0; const·y_small]` and solves;
  - it rescales the answer to sum 1;
  - it zeroes every entry below `thresh`, which defaults to 0.01.

Supporting modules:
- `Floats` (`floats.dfy`) models the three double behaviours the solver
  relies on: minus infinity, NaN and IEEE `<`. It also models Python's
  built-in `min` and numpy's `argmax`, in their scan order.
- `Vectors` (`vectors.dfy`) holds sums and dot products, with Python's
  left-to-right `sum`.
- `Masks` (`masks.dfy`) holds boolean masks, the list
  `[i for i, e in enumerate(P) if e]` and the scatter `z[P] = v`.
- `Matrices` (`matrices.dfy`) holds dense matrices, `A x`, `Aᵀ r`, the
  residual, the multipliers and `norm(C, 1)`.

The least-squares routine `lsqr` is a function parameter (`LeastSquares`).
The model uses nothing about its answer except where the answer is written:
only on the passive columns, in the order of the column list.
`np.power` is also a parameter (`Power`). It is assumed only to be
non-negative on a non-negative base.

The default tolerance `10 · 2⁻⁵² · norm(C, 1) · (max(m, n) + 1)` is
modelled exactly for a matrix with at least one column. The sentinel
`tol = −1` selects it.

The step length `min(x[Q] / (x[Q] − z[Q]))` can be `0/0`. It happens when
a column in Q has `x_j = z_j = 0`. The column just moved into P can be such a
column: its x entry is 0, and the new solve may give it exactly 0 as well. A
negative value there gives the ratio `0/(−z_j) = 0` instead.
The model follows the code:
- that ratio is NaN;
- Python's `min` keeps a NaN only when it is the first item, so the step is
  NaN exactly when the lowest-numbered column of Q has `x_j = z_j = 0`
  (`Nnls.StepLength`);
- a NaN step turns every entry of x into NaN;
- NaN is never `< tol`, so the re-split keeps P, the re-solve gives the same
  z, and only the iteration budget ends the run (`Nnls.PoisonedStepRepeats`).

## Model

| member | source | states |
|---|---|---|
| Floats.BuiltinMin | PythonCode/src/sparse_nnls.py:92 | Python's `min` over the ratios: a NaN first item gives NaN; over finite items (no minus infinity) the result is finite, at most every finite item, and one of the items |
| Floats.Argmax | PythonCode/src/sparse_nnls.py:68 | `argmax` returns an index whose value no entry exceeds, and every earlier entry is strictly smaller, so ties go to the lowest index |
| Masks.TrueIndices | PythonCode/src/sparse_nnls.py:75 | the column list of P has one entry per set position, holds only set positions, is strictly increasing and includes every set position |
| Masks.ScatterFillsInOrder | PythonCode/src/sparse_nnls.py:75 | `z[P] = v` puts the k-th value of v at the k-th column of the list |
| Matrices.MaxAbsColumnSum | PythonCode/src/sparse_nnls.py:24 | `norm(C, 1)` is non-negative, at least every absolute column sum, and equal to one of them when there are columns |
| Nnls.DefaultTolerance | PythonCode/src/sparse_nnls.py:24 | the default tolerance is non-negative, at least `10 · eps · (max(m, n) + 1)` times every absolute column sum, and equal to that multiple of one of them; with no columns it is 0 |
| Matrices.Multipliers | PythonCode/src/sparse_nnls.py:40-46 | `w = Cᵀ(d − C x)` has one entry per column; its meaning is `Matrices.MultiplierIsSlope` |
| Matrices.MultiplierIsSlope | PythonCode/src/sparse_nnls.py:103-109 | raising x_j by t changes `‖d − C x‖²` by `−2 t w_j + t² ‖C_j‖²`: w_j is the rate at which the objective falls along column j, so a positive multiplier marks a column worth freeing |
| Nnls.ResolveTolerance | PythonCode/src/sparse_nnls.py:24 | a caller's `tol` is used unchanged unless it is the sentinel −1, whose default tolerance is non-negative |
| Nnls.Masked | PythonCode/src/sparse_nnls.py:64-65 | the masked multipliers hold no NaN, keep each active multiplier, and rank every passive column strictly below every active one, so `argmax` can only pick an active column (`Nnls.EnteringIndex`) |
| Nnls.EnteringIndex | PythonCode/src/sparse_nnls.py:64-72 | the entering column is active, has the largest multiplier among active columns, and every active column before it has a strictly smaller one |
| Nnls.SubSolve | PythonCode/src/sparse_nnls.py:74-75 | the intermediate solution has length n and is 0 on every non-passive column |
| Nnls.SubSolveUsesOracle | PythonCode/src/sparse_nnls.py:75 | the k-th passive column receives the k-th value the least-squares routine returns for `C[:, P]` |
| Nnls.FirstBlocking | PythonCode/src/sparse_nnls.py:89 | Q is non-empty while the inner guard holds; its first column is passive with `z_j ≤ 0`, and every passive column before it has `z_j > 0` |
| Nnls.StepLength | PythonCode/src/sparse_nnls.py:89-92 | alpha is never minus infinity; it is NaN exactly when Q's first column has `x_j = z_j = 0`; otherwise it is one of the ratios and at most every finite ratio, so the longest step that keeps x non-negative; it lies in [0, 1], keeps every column of Q non-negative, and drives one of them to exactly 0 |
| Nnls.Step | PythonCode/src/sparse_nnls.py:89-93 | a finite step is `x + a (z − x)` for the longest step a: a is in [0, 1], is the ratio of some blocking column and at most every finite blocking ratio; the new x is non-negative and zeroes some blocking passive column; the step is NaN exactly when x already was, or when the first blocking column has `x_j = z_j = 0` |
| Nnls.Resplit | PythonCode/src/sparse_nnls.py:96-97 | the new Z contains the old one, the new `P = ~Z` lies within the old P, a NaN x leaves Z unchanged, and the columns that join Z are exactly the passive ones whose finite x is below tol in absolute value |
| Nnls.InnerStepShrinksPassive | PythonCode/src/sparse_nnls.py:95-97 | the re-split only adds to Z, so the new P = ¬Z lies within the old P; a NaN step changes nothing; with `tol > 0` a finite step strictly shrinks P |
| Nnls.PoisonedStepRepeats | PythonCode/src/sparse_nnls.py:92-99 | after a NaN step the new P equals the old, the re-solve returns the same z, and the inner guard still holds |
| Nnls.RestoreFeasibility | PythonCode/src/sparse_nnls.py:77-99 | the inner loop keeps P, Z a partition and only shrinks P; on exit z is the solve on the final P; it stops with every passive z positive, or with the counter at exactly `itmax + 1` and some passive z non-positive |
| Nnls.SparseNnls | PythonCode/src/sparse_nnls.py:7-111 | the result has length n and P, Z partition the columns; on every return the result is the least-squares routine's answer on the final passive columns (`x = z`, zero when no round runs); the counter never passes `itmax + 1`, and reaches it exactly on the early return; a normal return has no active multiplier of the final x above tol, x > 0 on P and x = 0 on Z; an early return gives the last solve, which has a non-positive entry on some passive column; if no multiplier at x = 0 exceeds tol, the answer is the zero vector |
| MinDiv.SupportMask | PythonCode/src/MinDivLP.py:28 | B has the shape of `A_large` and is set exactly where `A_large` is positive |
| MinDiv.Coverage | PythonCode/src/MinDivLP.py:31 | `Bᵀ y` has one entry per column, each between 0 and `sum(y)` for a non-negative y; `MinDiv.CoverageOfSupport` pins it further |
| MinDiv.CoverageOfSupport | PythonCode/src/MinDivLP.py:28-31 | `(Bᵀ y)_j`, through B = `A_large > 0`, is at least each y_i where column j is positive, at most `sum(y)`, non-negative, and 0 when column j has no positive entry |
| MinDiv.Weights | PythonCode/src/MinDivLP.py:30-32 | one weight per column of `A_large`, each in (0, 1/ε] = (0, 10000] |
| MinDiv.Stack | PythonCode/src/MinDivLP.py:34 | the stacked C is well-formed with `1 + m_small` rows and n columns, and d has one entry per row |
| MinDiv.StackedResidual | PythonCode/src/MinDivLP.py:34 | the stacked residual `d − C x` is `−(f·x)` followed by `const · (y_small − A_small x)` |
| MinDiv.SplitObjective | PythonCode/src/MinDivLP.py:34 | a residual of that shape has squared norm `(f·x)² + const² · ||y_small − A_small x||²`, so the solver's objective `‖C x − d‖²` equals the regularised MinDivLP objective |
| MinDiv.DegenerateSystemIsStationary | PythonCode/src/MinDivLP.py:34 | with an all-zero `y_small`, no multiplier of the stacked system at x = 0 exceeds the default tolerance |
| MinDiv.Normalise | PythonCode/src/MinDivLP.py:35 | `x / sum(x)` with a non-zero sum keeps the length, each entry times the sum is the input entry, it sums to 1, and it is non-negative when x is |
| MinDiv.Threshold | PythonCode/src/MinDivLP.py:36 | after `x[x < thresh] = 0` every entry is 0 or at least thresh, entries at or above thresh are unchanged, entries below it become 0, and a positive thresh leaves no negative entry |
| MinDiv.ThresholdIdempotent | PythonCode/src/MinDivLP.py:36 | thresholding twice is thresholding once |
| MinDiv.ThresholdLowersSum | PythonCode/src/MinDivLP.py:36 | on a non-negative vector, thresholding never raises the sum |
| MinDiv.PostProcess | PythonCode/src/MinDivLP.py:35-36 | a zero total is reported as such; otherwise the result keeps the length; each entry is 0 or at least thresh; a non-zero entry is the input entry divided by the total; an entry whose normalised value reaches thresh is kept; a positive thresh gives a non-negative result; a non-negative input sums to at most 1, since nothing renormalises |
| MinDiv.MinDivLPDefaultThreshold | PythonCode/src/MinDivLP.py:6 | without `thresh`, the same run on the same stacked system with the same exit conditions, with the answer post-processed with 0.01: the reconstruction is non-negative and each entry is 0 or at least 0.01 |
| MinDiv.MinDivLP | PythonCode/src/MinDivLP.py:6-37 | the solver runs on the system stacked from the weights of `A_large`, `y_large` and the scaled `A_small`, `y_small`; its raw answer is the least-squares routine's answer on its final passive columns; after a normal return that answer is positive on those columns, and no other column's multiplier exceeds the default tolerance; after an early return it is non-positive on some passive column; the reconstruction is that answer (one entry per column of `A_small`) normalised and thresholded; each entry of the reconstruction is 0 or at least thresh; a positive thresh makes it non-negative, even after an early solver return; after a normal return it sums to at most 1; an all-zero `y_small` makes the solver stop at x = 0, and the normalisation then meets a zero total |

## Left out

- Sparse CSC/CSR storage, `tocsc`, `csc_matvec` and `csr_matvec`: matrices are dense rows of reals, and only their values matter.
- The internals of `lsqr`: it is a function parameter. Nothing is claimed about its answer being a least-squares minimiser. `lsqr` returns one value per column; for an answer of any other length the model writes its first values onto the passive columns in order, leaves missing ones at 0 and ignores extra ones, whereas numpy broadcasts a one-element answer to every passive column and raises on any other mismatch.
- Floating-point rounding and overflow: the model computes in exact reals. The only float behaviours kept are minus infinity for the masked multipliers, and NaN from the `0/0` step length.
- KKT optimality of the answer: it depends on `lsqr` being a true minimiser. Only the exit condition of each return path is stated.
- The `outeriter` counter (sparse_nnls.py:56): it is never read. The `print` at line 84 is represented by the `Exit` value `IterationCountExceeded`.
- `d` given as an m×1 sparse matrix: the model takes d as a vector.
- `np.power` with a fractional exponent: it is the parameter `Power`, assumed non-negative on non-negative bases.
- MinDiv.Weights: requires `y_large` to be non-negative, as sample counts are. The source does not check it, and numpy's power of a negative coverage would be NaN, which the model does not represent.
- MinDiv.PostProcess: any solver answer whose entries sum to 0 is the `ZeroTotal` outcome. That includes the all-zero answer and a mixed-sign answer from the early return (sparse_nnls.py:85-86). numpy would instead divide by zero: 0/0 gives NaN and a non-zero entry gives ±inf; line 36 then zeroes the −inf entries and keeps the +inf and NaN ones.
- MinDiv.SplitObjective: the squared-norm identity is stated for the residual vector `MinDiv.StackedResidual` gives, not directly on `Residual(Stack(…))`. The two lemmas chain by substitution.
- Nnls.ResolveTolerance: for the sentinel it states only that the default is non-negative. The exact formula is `Nnls.DefaultTolerance`, and `Matrices.MaxAbsColumnSum` characterises its norm.
- MinDiv.MinDivLP: requires `A_small` and `A_large` to have the same number of columns and each sample vector to match its matrix's rows; the model has no error outcome for a mismatch. The source raises on a column-count mismatch (`vstack` at MinDivLP.py:34) and on a `y_large` of the wrong length (`B.T @ y_large` at line 31). `np.append(0, const * y_small)` accepts any length, so a wrong `y_small` only fails inside `sparse_nnls`, as a `d` whose length differs from C's row count (sparse_nnls.py:41-42, 75).
- Nnls.DefaultTolerance: a matrix with no columns gets tolerance 0, and the run then converges at once with an empty x. scipy's `norm(C, 1)` takes the maximum of an empty array there and raises.
- Caller contracts the source documents but does not check (`0 < q < 1`, positive `const`): the model accepts any real values.
- The rest of the repository (sensing-matrix and sample-vector builders, taxonomy and BIOM converters, experiments, benchmarks) and the tests: file I/O, external binaries, plotting and float-accuracy checks.

=== FILE: floats.dfy ===
/**
 * The handful of double-precision behaviours the solver depends on, stated
 * over exact reals: minus infinity (used to mask multipliers before `argmax`),
 * NaN (what `0/0` yields) and the comparison `<`, which is false as soon as
 * either operand is NaN. On top of these: Python's built-in `min` and numpy's
 * `argmax`, exactly in the scan order the two library routines use.
 */
module Floats {

  /** A double as the solver can produce one: finite, minus infinity, or NaN. */
  datatype Ext = NegInf | Fin(v: real) | NaN

  /** IEEE 754 `<`: minus infinity is below every finite value; NaN compares false. */
  predicate Less(a: Ext, b: Ext)
  {
    match (a, b)
    case (NegInf, Fin(_)) => true
    case (Fin(p), Fin(q)) => p < q
    case _ => false
  }

  /**
   * The loop of Python's built-in `min`: the running value `cur` is replaced
   * by each later item that compares `<` it. A NaN in front is therefore never
   * replaced, and a NaN further on is never taken.
   */
  function MinFrom(cur: Ext, rest: seq<Ext>): (r: Ext)
    ensures cur.NaN? ==> r.NaN?
    ensures cur.Fin? && (forall k :: 0 <= k < |rest| ==> !rest[k].NegInf?) ==>
              && r.Fin?
              && r.v <= cur.v
              && (forall k :: 0 <= k < |rest| && rest[k].Fin? ==> r.v <= rest[k].v)
              && (r == cur || r in rest)
    decreases |rest|
  {
    if |rest| == 0 then cur
    else
      var next := if Less(rest[0], cur) then rest[0] else cur;
      var r := MinFrom(next, rest[1..]);
      assert forall k :: 1 <= k < |rest| ==> rest[k] == rest[1..][k - 1];
      assert r in rest[1..] ==> r in rest;
      r
  }

  /** `min(s)` for a non-empty `s` (an empty one raises in Python). */
  function BuiltinMin(s: seq<Ext>): (r: Ext)
    requires |s| > 0
    ensures s[0].NaN? ==> r.NaN?
    ensures s[0].Fin? && (forall k :: 0 <= k < |s| ==> !s[k].NegInf?) ==>
              && r.Fin?
              && (forall k :: 0 <= k < |s| && s[k].Fin? ==> r.v <= s[k].v)
              && r in s
  {
    var r := MinFrom(s[0], s[1..]);
    assert forall k :: 1 <= k < |s| ==> s[k] == s[1..][k - 1];
    assert r in s[1..] ==> r in s;
    r
  }

  /**
   * numpy's `argmax` over values that are never NaN: the index of a maximum,
   * the lowest one when several entries tie.
   */
  method Argmax(s: seq<Ext>) returns (t: nat)
    requires |s| > 0
    requires forall k :: 0 <= k < |s| ==> !s[k].NaN?
    ensures t < |s|
    ensures forall k :: 0 <= k < |s| ==> !Less(s[t], s[k])
    ensures forall k :: 0 <= k < t ==> Less(s[k], s[t])
  {
    t := 0;
    var k := 1;
    while k < |s|
      invariant 1 <= k <= |s|
      invariant t < k
      invariant forall l :: 0 <= l < k ==> !Less(s[t], s[l])
      invariant forall l :: 0 <= l < t ==> Less(s[l], s[t])
    {
      if Less(s[t], s[k]) {
        t := k;
      }
      k := k + 1;
    }
  }
}

=== FILE: masks.dfy ===
/**
 * Boolean column masks, the solver's representation of its passive set P and
 * active set Z, and the two numpy idioms applied to them: boolean indexing
 * `[i for i, e in enumerate(P) if e]` and the masked assignment `z[P] = v`.
 */
module Masks {

  /** The number of set entries. */
  function Count(m: seq<bool>): nat
  {
    if |m| == 0 then 0 else Count(m[..|m| - 1]) + (if m[|m| - 1] then 1 else 0)
  }

  /** `~m` */
  function Not(m: seq<bool>): seq<bool>
  {
    seq(|m|, j requires 0 <= j < |m| => !m[j])
  }

  /** Every column is in exactly one of the two masks. */
  predicate Partition(P: seq<bool>, Z: seq<bool>)
  {
    |P| == |Z| && forall j :: 0 <= j < |P| ==> P[j] != Z[j]
  }

  /** The columns set in `a` are all set in `b`. */
  predicate Within(a: seq<bool>, b: seq<bool>)
  {
    |a| == |b| && forall j :: 0 <= j < |a| && a[j] ==> b[j]
  }

  /** `[i for i, e in enumerate(m) if e]`: the set positions, ascending. */
  function TrueIndices(m: seq<bool>): (ix: seq<nat>)
    ensures |ix| == Count(m)
    ensures forall k :: 0 <= k < |ix| ==> ix[k] < |m| && m[ix[k]]
    ensures forall k, l :: 0 <= k < l < |ix| ==> ix[k] < ix[l]
    ensures forall j :: 0 <= j < |m| && m[j] ==> j in ix
  {
    if |m| == 0 then []
    else
      var ix := TrueIndices(m[..|m| - 1]);
      if m[|m| - 1] then ix + [|m| - 1] else ix
  }

  /** A set position is the `Count(m[..j])`-th entry of the ascending list. */
  lemma {:induction false} RankOfTrueIndex(m: seq<bool>, k: nat)
    requires k < |TrueIndices(m)|
    ensures Count(m[..TrueIndices(m)[k]]) == k
  {
    var m' := m[..|m| - 1];
    if k < |TrueIndices(m')| {
      var j := TrueIndices(m')[k];
      assert TrueIndices(m)[k] == j;
      assert m[..j] == m'[..j];
      RankOfTrueIndex(m', k);
    } else {
      assert TrueIndices(m)[k] == |m| - 1;
    }
  }

  /** Removing at least one set entry, and adding none, lowers the count. */
  lemma {:induction false} CountMonotone(a: seq<bool>, b: seq<bool>)
    requires Within(b, a)
    ensures Count(b) <= Count(a)
  {
    if |a| > 0 {
      CountMonotone(a[..|a| - 1], b[..|b| - 1]);
    }
  }

  lemma {:induction false} CountShrinks(a: seq<bool>, b: seq<bool>, j: nat)
    requires Within(b, a)
    requires j < |a| && a[j] && !b[j]
    ensures Count(b) < Count(a)
  {
    var n := |a| - 1;
    if j == n {
      CountMonotone(a[..n], b[..n]);
    } else {
      CountShrinks(a[..n], b[..n], j);
    }
  }

  /**
   * `z = zeros(len(P)); z[P] = v`: the k-th value of `v` goes to the k-th set
   * position of `P`, every other position holds 0. A `v` shorter than the
   * number of set positions leaves the remainder at 0.
   */
  function Scatter(P: seq<bool>, v: seq<real>): seq<real>
  {
    seq(|P|, j requires 0 <= j < |P| =>
      if P[j] && Count(P[..j]) < |v| then v[Count(P[..j])] else 0.0)
  }

  /** `Scatter` undoes the selection made by `TrueIndices`: value k lands on column k. */
  lemma ScatterFillsInOrder(P: seq<bool>, v: seq<real>, k: nat)
    requires k < Count(P) && k < |v|
    ensures TrueIndices(P)[k] < |P| && Scatter(P, v)[TrueIndices(P)[k]] == v[k]
  {
    RankOfTrueIndex(P, k);
  }
}

=== FILE: matrices.dfy ===
/**
 * Dense matrices stored row by row. The source keeps its matrices in sparse
 * CSC/CSR form; only the values matter here, so a zero entry is simply stored.
 */
module Matrices {
  import opened Vectors

  /** A `rows` by `cols` matrix; `data[i][j]` is the entry in row i, column j. */
  datatype Matrix = Matrix(rows: nat, cols: nat, data: seq<seq<real>>)
  {
    predicate Valid()
    {
      |data| == rows && forall i :: 0 <= i < rows ==> |data[i]| == cols
    }
  }

  function Column(A: Matrix, j: nat): seq<real>
    requires A.Valid() && j < A.cols
  {
    seq(A.rows, i requires 0 <= i < A.rows => A.data[i][j])
  }

  /** `A x` */
  function MatVec(A: Matrix, x: seq<real>): seq<real>
    requires A.Valid() && |x| == A.cols
  {
    seq(A.rows, i requires 0 <= i < A.rows => Dot(A.data[i], x))
  }

  /** `Aᵀ r` */
  function TransposeVec(A: Matrix, r: seq<real>): seq<real>
    requires A.Valid() && |r| == A.rows
  {
    seq(A.cols, j requires 0 <= j < A.cols => Dot(Column(A, j), r))
  }

  /** `d - C x` */
  function Residual(C: Matrix, d: seq<real>, x: seq<real>): seq<real>
    requires C.Valid() && |d| == C.rows && |x| == C.cols
  {
    Sub(d, MatVec(C, x))
  }

  /** The Lagrange multipliers `w = Cᵀ (d - C x)`. */
  function Multipliers(C: Matrix, d: seq<real>, x: seq<real>): (w: seq<real>)
    requires C.Valid() && |d| == C.rows && |x| == C.cols
    ensures |w| == C.cols
  {
    TransposeVec(C, Residual(C, d, x))
  }

  /** Moving x by t along column j moves the residual by `-t` times that column. */
  lemma ResidualNudge(C: Matrix, d: seq<real>, x: seq<real>, j: nat, t: real)
    requires C.Valid() && |d| == C.rows && |x| == C.cols && j < C.cols
    ensures Residual(C, d, x[j := x[j] + t]) == Sub(Residual(C, d, x), Scale(t, Column(C, j)))
  {
    forall i | 0 <= i < C.rows
      ensures Residual(C, d, x[j := x[j] + t])[i] == Sub(Residual(C, d, x), Scale(t, Column(C, j)))[i]
    {
      DotNudge(C.data[i], x, j, t);
    }
  }

  /**
   * The multiplier w_j is the rate at which the objective `||d - C x||²`
   * falls as x_j rises: along column j it changes by
   * `-2 t w_j + t² ||C_j||²`. A positive w_j is a column worth freeing.
   */
  lemma MultiplierIsSlope(C: Matrix, d: seq<real>, x: seq<real>, j: nat, t: real)
    requires C.Valid() && |d| == C.rows && |x| == C.cols && j < C.cols
    ensures SumSq(Residual(C, d, x[j := x[j] + t]))
            == SumSq(Residual(C, d, x)) - 2.0 * t * Multipliers(C, d, x)[j] + t * t * SumSq(Column(C, j))
  {
    ResidualNudge(C, d, x, j, t);
    SumSqShift(Residual(C, d, x), Column(C, j), t);
  }

  /** `C[:, cols]`: the listed columns, in the listed order. */
  function SelectColumns(C: Matrix, cols: seq<nat>): (S: Matrix)
    requires C.Valid()
    requires forall k :: 0 <= k < |cols| ==> cols[k] < C.cols
    ensures S.Valid() && S.rows == C.rows && S.cols == |cols|
  {
    Matrix(C.rows, |cols|,
      seq(C.rows, i requires 0 <= i < C.rows =>
        seq(|cols|, k requires 0 <= k < |cols| => C.data[i][cols[k]])))
  }

  /** The sum of absolute values down column j. */
  function AbsColumnSum(C: Matrix, j: nat): (r: real)
    requires C.Valid() && j < C.cols
    ensures r >= 0.0
  {
    var a := seq(C.rows, i requires 0 <= i < C.rows => Abs(C.data[i][j]));
    SumNonNegative(a);
    Sum(a)
  }

  /** The largest absolute column sum among the first `k` columns (0 when k is 0). */
  function MaxAbsColumnSum(C: Matrix, k: nat): (r: real)
    requires C.Valid() && k <= C.cols
    ensures r >= 0.0
    ensures forall j :: 0 <= j < k ==> AbsColumnSum(C, j) <= r
    ensures k > 0 ==> exists j :: 0 <= j < k && AbsColumnSum(C, j) == r
  {
    if k == 0 then 0.0
    else
      var c := AbsColumnSum(C, k - 1);
      var r := MaxAbsColumnSum(C, k - 1);
      if c > r then c else r
  }

  /** The matrix 1-norm, `norm(C, 1)`: the largest absolute column sum. */
  function Norm1(C: Matrix): real
    requires C.Valid()
  {
    MaxAbsColumnSum(C, C.cols)
  }

  /** At the origin the residual is `d` itself. */
  lemma MatVecZeros(A: Matrix)
    requires A.Valid()
    ensures MatVec(A, Zeros(A.cols)) == Zeros(A.rows)
  {
    forall i | 0 <= i < A.rows
      ensures MatVec(A, Zeros(A.cols))[i] == 0.0
    {
      DotZeros(A.data[i]);
    }
  }

  /** No target, no multiplier: `Cᵀ 0 = 0`. */
  lemma TransposeVecZeros(A: Matrix)
    requires A.Valid()
    ensures TransposeVec(A, Zeros(A.rows)) == Zeros(A.cols)
  {
    forall j | 0 <= j < A.cols
      ensures TransposeVec(A, Zeros(A.rows))[j] == 0.0
    {
      DotZeros(Column(A, j));
    }
  }
}

=== FILE: mindiv.dfy ===
/**
 * `MinDivLP`: the regularised reconstruction. From the two sensing matrices
 * and the two sample vectors it builds one non-negative least-squares system,
 *
 *     C = [ fᵀ ; const * A_small ]      d = [ 0 ; const * y_small ],
 *
 * where f penalises taxa whose large-k k-mers are little seen in the sample,
 * solves it with `sparse_nnls`, rescales the answer to sum to 1 and zeroes
 * every entry below a threshold.
 *
 * `np.power` with a fractional exponent is a parameter, known only to be
 * non-negative on a non-negative base.
 */
module MinDiv {
  import opened Vectors
  import opened Matrices
  import opened Nnls

  /** Added to every denominator of f, so that f never exceeds 1 / Epsilon = 10000. */
  const Epsilon: real := 0.0001

  /** The default `thresh`. */
  const DefaultThreshold: real := 0.01

  /** `np.power(base, exponent)` */
  type Power = (real, real) -> real

  ghost predicate PowerNonNegative(pow: Power)
  {
    forall b: real, e: real :: b >= 0.0 ==> pow(b, e) >= 0.0
  }

  /** `B = A_large > 0`: which k-mers each taxon contains. */
  function SupportMask(A: Matrix): (B: seq<seq<bool>>)
    requires A.Valid()
    ensures |B| == A.rows && forall i :: 0 <= i < |B| ==> |B[i]| == A.cols
    ensures forall i, j :: 0 <= i < A.rows && 0 <= j < A.cols ==> (B[i][j] <==> A.data[i][j] > 0.0)
  {
    seq(A.rows, i requires 0 <= i < A.rows =>
      seq(A.cols, j requires 0 <= j < A.cols => A.data[i][j] > 0.0))
  }

  /** A boolean as numpy multiplies it: True is 1, False is 0. */
  function Indicator(b: bool): real
  {
    if b then 1.0 else 0.0
  }

  /** Column j of B, as numbers. */
  function MaskColumn(B: seq<seq<bool>>, j: nat): seq<real>
    requires forall i :: 0 <= i < |B| ==> j < |B[i]|
  {
    seq(|B|, i requires 0 <= i < |B| => Indicator(B[i][j]))
  }

  /** `B.T @ y`: for each column, the sample mass on the rows where it is set. */
  function Coverage(B: seq<seq<bool>>, y: seq<real>, n: nat): (c: seq<real>)
    requires |B| == |y| && forall i :: 0 <= i < |B| ==> |B[i]| == n
    ensures |c| == n
    ensures NonNegative(y) ==> forall j :: 0 <= j < n ==> 0.0 <= c[j] <= Sum(y)
  {
    forall j | 0 <= j < n && NonNegative(y)
      ensures 0.0 <= Dot(MaskColumn(B, j), y) <= Sum(y)
    {
      IndicatorDotBounds(MaskColumn(B, j), y);
    }
    seq(n, j requires 0 <= j < n => Dot(MaskColumn(B, j), y))
  }

  /**
   * Through the support mask, column j of A_large covers the sample mass of
   * exactly the k-mers it contains: at least each such row's y, at most the
   * whole of y, and nothing when the column has no support.
   */
  lemma CoverageOfSupport(A: Matrix, y: seq<real>, j: nat)
    requires A.Valid() && |y| == A.rows && NonNegative(y) && j < A.cols
    ensures 0.0 <= Coverage(SupportMask(A), y, A.cols)[j] <= Sum(y)
    ensures forall i :: 0 <= i < A.rows && A.data[i][j] > 0.0 ==>
              y[i] <= Coverage(SupportMask(A), y, A.cols)[j]
    ensures (forall i :: 0 <= i < A.rows ==> A.data[i][j] <= 0.0) ==>
              Coverage(SupportMask(A), y, A.cols)[j] == 0.0
  {
    var B := SupportMask(A);
    var u := MaskColumn(B, j);
    assert forall i :: 0 <= i < A.rows ==> (u[i] == 1.0 <==> A.data[i][j] > 0.0);
    IndicatorDotBounds(u, y);
  }

  /** One weight, `1 / (power(c, 1 - q) + epsilon)`, for a non-negative coverage c. */
  function Weight(c: real, q: real, pow: Power): (fj: real)
    requires c >= 0.0 && PowerNonNegative(pow)
    ensures 0.0 < fj <= 1.0 / Epsilon
  {
    var p := pow(c, 1.0 - q);
    WeightBound(p);
    1.0 / (p + Epsilon)
  }

  lemma WeightBound(p: real)
    requires p >= 0.0
    ensures 0.0 < 1.0 / (p + Epsilon) <= 1.0 / Epsilon
  {
    var den := p + Epsilon;
    assert (1.0 / den) * den == 1.0;
    assert (1.0 / den) * Epsilon <= (1.0 / den) * den;
  }

  /**
   * `f = 1 / (np.power(B.T @ y_large, 1 - q) + epsilon)`: one positive weight
   * per taxon, never above 1 / Epsilon.
   */
  function Weights(ALarge: Matrix, yLarge: seq<real>, q: real, pow: Power): (f: seq<real>)
    requires ALarge.Valid() && |yLarge| == ALarge.rows
    requires NonNegative(yLarge) && PowerNonNegative(pow)
    ensures |f| == ALarge.cols
    ensures forall j :: 0 <= j < |f| ==> 0.0 < f[j] <= 1.0 / Epsilon
  {
    var c := Coverage(SupportMask(ALarge), yLarge, ALarge.cols);
    assert forall j :: 0 <= j < ALarge.cols ==> c[j] >= 0.0 by {
      forall j | 0 <= j < ALarge.cols
        ensures c[j] >= 0.0
      {
        CoverageOfSupport(ALarge, yLarge, j);
      }
    }
    seq(ALarge.cols, j requires 0 <= j < ALarge.cols => Weight(c[j], q, pow))
  }

  /** The system handed to the solver. */
  datatype System = System(C: Matrix, d: seq<real>)

  /** `vstack((f.T, const * A_small))` and `np.append(0, const * y_small)` */
  function Stack(f: seq<real>, ASmall: Matrix, lambda: real, ySmall: seq<real>): (s: System)
    requires ASmall.Valid() && |f| == ASmall.cols && |ySmall| == ASmall.rows
    ensures s.C.Valid() && s.C.rows == 1 + ASmall.rows && s.C.cols == ASmall.cols
    ensures |s.d| == s.C.rows
  {
    var rows := seq(ASmall.rows, i requires 0 <= i < ASmall.rows => Scale(lambda, ASmall.data[i]));
    System(Matrix(1 + ASmall.rows, ASmall.cols, [f] + rows), [0.0] + Scale(lambda, ySmall))
  }

  /**
   * The stacked residual is the weight row's value on top of the scaled fit
   * residual: `d - C x = [-(f·x)] + const * (y_small - A_small x)`.
   */
  lemma StackedResidual(f: seq<real>, ASmall: Matrix, lambda: real, ySmall: seq<real>, x: seq<real>)
    requires ASmall.Valid() && |f| == ASmall.cols && |ySmall| == ASmall.rows && |x| == ASmall.cols
    ensures Residual(Stack(f, ASmall, lambda, ySmall).C, Stack(f, ASmall, lambda, ySmall).d, x) ==
            [-Dot(f, x)] + Scale(lambda, Residual(ASmall, ySmall, x))
  {
    StackShape(f, ASmall, lambda, ySmall);
    WeightedRows(Stack(f, ASmall, lambda, ySmall).C, Stack(f, ASmall, lambda, ySmall).d, f, ASmall, ySmall, lambda, x);
  }

  /** The stacked system is the weight row over `const` times the fit rows. */
  lemma StackShape(f: seq<real>, ASmall: Matrix, lambda: real, ySmall: seq<real>)
    requires ASmall.Valid() && |f| == ASmall.cols && |ySmall| == ASmall.rows
    ensures WeightedSystem(Stack(f, ASmall, lambda, ySmall).C, Stack(f, ASmall, lambda, ySmall).d, f, ASmall, ySmall, lambda)
  {
    forall k | 1 <= k <= ASmall.rows
      ensures Stack(f, ASmall, lambda, ySmall).C.data[k] == Scale(lambda, ASmall.data[k - 1]) &&
              Stack(f, ASmall, lambda, ySmall).d[k] == lambda * ySmall[k - 1]
    {
      StackRow(f, ASmall, lambda, ySmall, k);
    }
  }

  /**
   * A system whose first row h has target 0 and whose other rows are `const`
   * times those of (A, y), row for row and target for target.
   */
  predicate WeightedSystem(C: Matrix, d: seq<real>, h: seq<real>, A: Matrix, y: seq<real>, lambda: real)
  {
    C.Valid() && A.Valid() && C.rows == A.rows + 1 && C.cols == A.cols &&
    |d| == C.rows && |y| == A.rows && C.data[0] == h && d[0] == 0.0 &&
    forall k :: 1 <= k <= A.rows ==> C.data[k] == Scale(lambda, A.data[k - 1]) && d[k] == lambda * y[k - 1]
  }

  /**
   * Such a system has residual `[-(h·x)] + const * (y - A x)`.
   */
  lemma WeightedRows(C: Matrix, d: seq<real>, h: seq<real>, A: Matrix, y: seq<real>, lambda: real, x: seq<real>)
    requires WeightedSystem(C, d, h, A, y, lambda) && |x| == A.cols
    ensures Residual(C, d, x) == [-Dot(h, x)] + Scale(lambda, Residual(A, y, x))
  {
    forall k | 1 <= k < C.rows
      ensures Residual(C, d, x)[k] == lambda * Residual(A, y, x)[k - 1]
    {
      ScaledRowResidualAt(C, d, h, A, y, lambda, x, k);
    }
    ResidualEntry(C, d, x, 0);
    HeadAndScaledTail(Residual(C, d, x), -Dot(h, x), lambda, Residual(A, y, x));
  }

  lemma ScaledRowResidualAt(C: Matrix, d: seq<real>, h: seq<real>, A: Matrix, y: seq<real>, lambda: real, x: seq<real>, k: nat)
    requires WeightedSystem(C, d, h, A, y, lambda) && |x| == A.cols
    requires 1 <= k < C.rows
    ensures Residual(C, d, x)[k] == lambda * Residual(A, y, x)[k - 1]
  {
    ResidualEntry(C, d, x, k);
    ResidualEntry(A, y, x, k - 1);
    ScaledRowResidual(A.data[k - 1], x, lambda, y[k - 1]);
  }

  lemma HeadAndScaledTail(v: seq<real>, head: real, lambda: real, r: seq<real>)
    requires |v| == |r| + 1 && v[0] == head
    requires forall k :: 1 <= k < |v| ==> v[k] == lambda * r[k - 1]
    ensures v == [head] + Scale(lambda, r)
  {
    assert forall k :: 0 <= k < |v| ==> v[k] == ([head] + Scale(lambda, r))[k];
  }

  /** Row k of the stacked system, below the weight row. */
  lemma StackRow(f: seq<real>, ASmall: Matrix, lambda: real, ySmall: seq<real>, k: nat)
    requires ASmall.Valid() && |f| == ASmall.cols && |ySmall| == ASmall.rows
    requires 1 <= k <= ASmall.rows
    ensures Stack(f, ASmall, lambda, ySmall).C.data[k] == Scale(lambda, ASmall.data[k - 1])
    ensures Stack(f, ASmall, lambda, ySmall).d[k] == lambda * ySmall[k - 1]
  {
  }

  lemma ResidualEntry(C: Matrix, d: seq<real>, x: seq<real>, i: nat)
    requires C.Valid() && |d| == C.rows && |x| == C.cols && i < C.rows
    ensures Residual(C, d, x)[i] == d[i] - Dot(C.data[i], x)
  {
  }

  /** `const * y_i - (const * A_i)·x = const * (y_i - A_i·x)` */
  lemma ScaledRowResidual(row: seq<real>, x: seq<real>, lambda: real, yi: real)
    requires |row| == |x|
    ensures lambda * yi - Dot(Scale(lambda, row), x) == lambda * (yi - Dot(row, x))
  {
    DotScale(lambda, row, x);
  }

  /**
   * The solver's objective `||C x - d||²` is the MinDivLP objective: a residual of the
   * shape `StackedResidual` gives, `[-(f·x)] + const * r`, has squared norm
   * `(f·x)² + const² ||r||²`.
   */
  lemma SplitObjective(D: real, lambda: real, r: seq<real>)
    ensures SumSq([-D] + Scale(lambda, r)) == D * D + lambda * lambda * SumSq(r)
  {
    SumSqCons(-D, Scale(lambda, r));
    SumSqScale(lambda, r);
    NegSquare(D);
  }

  lemma NegSquare(a: real)
    ensures (-a) * (-a) == a * a
  {
  }

  /** `x / sum(x)` */
  function Normalise(x: seq<real>): (r: seq<real>)
    requires Sum(x) != 0.0
    ensures |r| == |x|
    ensures Sum(r) == 1.0
    ensures Rescales(r, Sum(x), x)
    ensures NonNegative(x) ==> NonNegative(r)
  {
    var s := Sum(x);
    var r := seq(|x|, j requires 0 <= j < |x| => x[j] / s);
    forall j | 0 <= j < |x|
      ensures r[j] == Scale(1.0 / s, x)[j]
    {
      DivideAsScale(x[j], s);
    }
    assert r == Scale(1.0 / s, x);
    SumScale(1.0 / s, x);
    assert NonNegative(x) ==> NonNegative(r) by {
      if NonNegative(x) {
        SumNonNegative(x);
      }
    }
    r
  }

  /** `n` times the factor `s` is `x`, entry by entry. */
  predicate Rescales(n: seq<real>, s: real, x: seq<real>)
  {
    |n| == |x| && forall j :: 0 <= j < |x| ==> n[j] * s == x[j]
  }

  lemma DivideAsScale(a: real, s: real)
    requires s != 0.0
    ensures a / s == (1.0 / s) * a
  {
    assert (a / s) * s == a;
    assert ((1.0 / s) * a) * s == a;
  }

  /**
   * `x[x < thresh] = 0`. No entry is left strictly between 0 and thresh:
   * each is 0 or at least thresh, and an entry at or above thresh is kept
   * as it was.
   */
  function Threshold(x: seq<real>, thresh: real): (r: seq<real>)
    ensures |r| == |x|
    ensures forall j :: 0 <= j < |x| ==> r[j] == 0.0 || r[j] >= thresh
    ensures forall j :: 0 <= j < |x| && x[j] >= thresh ==> r[j] == x[j]
    ensures forall j :: 0 <= j < |x| && x[j] < thresh ==> r[j] == 0.0
    ensures thresh > 0.0 ==> NonNegative(r)
  {
    seq(|x|, j requires 0 <= j < |x| => if x[j] < thresh then 0.0 else x[j])
  }

  /** Thresholding twice is thresholding once. */
  lemma ThresholdIdempotent(x: seq<real>, thresh: real)
    ensures Threshold(Threshold(x, thresh), thresh) == Threshold(x, thresh)
  {
  }

  /** On a non-negative vector thresholding only removes mass. */
  lemma ThresholdLowersSum(x: seq<real>, thresh: real)
    requires NonNegative(x)
    ensures Sum(Threshold(x, thresh)) <= Sum(x)
  {
    SumMonotone(Threshold(x, thresh), x);
  }

  /** The reconstruction, or the failure of its normalisation. */
  datatype Reconstruction = Profile(x: seq<real>) | ZeroTotal

  /**
   * Lines 35-36: normalise, then sparsify, without renormalising. A zero
   * total has no normalisation and is reported as such.
   */
  function PostProcess(xRaw: seq<real>, thresh: real): (r: Reconstruction)
    ensures r.ZeroTotal? <==> Sum(xRaw) == 0.0
    ensures r.Profile? ==> |r.x| == |xRaw|
    ensures r.Profile? ==> forall j :: 0 <= j < |r.x| ==> r.x[j] == 0.0 || r.x[j] >= thresh
    ensures r.Profile? ==> forall j :: 0 <= j < |r.x| && r.x[j] != 0.0 ==> r.x[j] * Sum(xRaw) == xRaw[j]
    ensures r.Profile? ==> forall j :: 0 <= j < |r.x| && xRaw[j] / Sum(xRaw) >= thresh ==>
              r.x[j] == xRaw[j] / Sum(xRaw)
    ensures r.Profile? && thresh > 0.0 ==> NonNegative(r.x)
    ensures r.Profile? && NonNegative(xRaw) ==> Sum(r.x) <= 1.0
  {
    if Sum(xRaw) == 0.0 then ZeroTotal else Profile(Sparsify(xRaw, thresh))
  }

  /** Lines 35-36 on a non-zero total: `Threshold(Normalise(xRaw), thresh)`. */
  function Sparsify(xRaw: seq<real>, thresh: real): (t: seq<real>)
    requires Sum(xRaw) != 0.0
    ensures |t| == |xRaw|
    ensures forall j :: 0 <= j < |t| ==> t[j] == 0.0 || t[j] >= thresh
    ensures forall j :: 0 <= j < |t| && t[j] != 0.0 ==> t[j] * Sum(xRaw) == xRaw[j]
    ensures forall j :: 0 <= j < |t| && xRaw[j] / Sum(xRaw) >= thresh ==> t[j] == xRaw[j] / Sum(xRaw)
    ensures thresh > 0.0 ==> NonNegative(t)
    ensures NonNegative(xRaw) ==> Sum(t) <= 1.0
  {
    ThresholdOfRescaled(Normalise(xRaw), xRaw, Sum(xRaw), thresh);
    assert NonNegative(xRaw) ==> Sum(Threshold(Normalise(xRaw), thresh)) <= 1.0 by {
      if NonNegative(xRaw) {
        ThresholdLowersSum(Normalise(xRaw), thresh);
      }
    }
    Threshold(Normalise(xRaw), thresh)
  }

  /**
   * Thresholding a rescaled copy `n` of `x` keeps, on every surviving entry,
   * the relation to `x`: it is still `x[j] / s`, and times `s` it is `x[j]`.
   */
  lemma ThresholdOfRescaled(n: seq<real>, x: seq<real>, s: real, thresh: real)
    requires s != 0.0 && Rescales(n, s, x)
    ensures forall j :: 0 <= j < |x| && Threshold(n, thresh)[j] != 0.0 ==> Threshold(n, thresh)[j] * s == x[j]
    ensures forall j :: 0 <= j < |x| && x[j] / s >= thresh ==> Threshold(n, thresh)[j] == x[j] / s
  {
    forall j | 0 <= j < |x| && Threshold(n, thresh)[j] != 0.0
      ensures Threshold(n, thresh)[j] * s == x[j]
    {
      assert Threshold(n, thresh)[j] == n[j];
    }
    forall j | 0 <= j < |x| && x[j] / s >= thresh
      ensures Threshold(n, thresh)[j] == x[j] / s
    {
      assert n[j] == x[j] / s by {
        assert n[j] * s == x[j];
      }
    }
  }

  /**
   * `MinDivLP(A_k_small, A_k_large, y_small, y_large, const, q, thresh)`,
   * returning the reconstruction, how the solver run ended, the stacked
   * system handed to the solver, the solver's final passive columns, and its
   * raw answer that the reconstruction post-processes.
   */
  method MinDivLP(ASmall: Matrix, ALarge: Matrix, ySmall: seq<real>, yLarge: seq<real>,
                  lambda: real, q: real, thresh: real, pow: Power, lsq: LeastSquares)
    returns (r: Reconstruction, exit: Exit, xRaw: seq<real>, s: System, P: seq<bool>)
    requires ASmall.Valid() && ALarge.Valid() && ASmall.cols == ALarge.cols
    requires |ySmall| == ASmall.rows && |yLarge| == ALarge.rows
    requires NonNegative(yLarge) && PowerNonNegative(pow)
    ensures s == Stack(Weights(ALarge, yLarge, q, pow), ASmall, lambda, ySmall)
    ensures s.C.Valid() && |s.d| == s.C.rows && |P| == s.C.cols && xRaw == SubSolve(lsq, s.C, s.d, P)
    ensures |xRaw| == ASmall.cols && r == PostProcess(xRaw, thresh)
    ensures exit == Converged ==> NonNegative(xRaw)
    ensures exit == IterationCountExceeded ==> |xRaw| == |P| && HasNonPositive(xRaw, P)
    ensures exit == Converged ==>
              && s.C.Valid() && |s.d| == s.C.rows && |xRaw| == s.C.cols && |P| == s.C.cols
              && (forall j :: 0 <= j < |xRaw| && P[j] ==> xRaw[j] > 0.0)
              && (forall j :: 0 <= j < |xRaw| && !P[j] ==> Multipliers(s.C, s.d, xRaw)[j] <= DefaultTolerance(s.C))
    ensures r.Profile? ==> |r.x| == ASmall.cols
    ensures r.Profile? ==> forall j :: 0 <= j < |r.x| ==> r.x[j] == 0.0 || r.x[j] >= thresh
    ensures r.Profile? && thresh > 0.0 ==> NonNegative(r.x)
    ensures r.Profile? && exit == Converged ==> Sum(r.x) <= 1.0
    ensures (forall i :: 0 <= i < |ySmall| ==> ySmall[i] == 0.0) ==> exit == Converged && r.ZeroTotal?
  {
    var f := Weights(ALarge, yLarge, q, pow);
    s := Stack(f, ASmall, lambda, ySmall);
    var x, e, Pfinal, Z, w, steps := SparseNnls(s.C, s.d, DefaultTolSentinel, DefaultItmaxFactor, lsq);
    exit, xRaw, P := e, x, Pfinal;
    r := PostProcess(x, thresh);
    if forall i :: 0 <= i < |ySmall| ==> ySmall[i] == 0.0 {
      DegenerateSystemIsStationary(f, ASmall, lambda, ySmall);
      SumZeros(s.C.cols);
    }
  }

  /** `MinDivLP` called without `thresh`, which then defaults to 0.01. */
  method MinDivLPDefaultThreshold(ASmall: Matrix, ALarge: Matrix, ySmall: seq<real>, yLarge: seq<real>,
                                  lambda: real, q: real, pow: Power, lsq: LeastSquares)
    returns (r: Reconstruction, exit: Exit, xRaw: seq<real>, s: System, P: seq<bool>)
    requires ASmall.Valid() && ALarge.Valid() && ASmall.cols == ALarge.cols
    requires |ySmall| == ASmall.rows && |yLarge| == ALarge.rows
    requires NonNegative(yLarge) && PowerNonNegative(pow)
    ensures s == Stack(Weights(ALarge, yLarge, q, pow), ASmall, lambda, ySmall)
    ensures s.C.Valid() && |s.d| == s.C.rows && |P| == s.C.cols && xRaw == SubSolve(lsq, s.C, s.d, P)
    ensures |xRaw| == ASmall.cols && r == PostProcess(xRaw, 0.01)
    ensures exit == IterationCountExceeded ==> |xRaw| == |P| && HasNonPositive(xRaw, P)
    ensures exit == Converged ==>
              && s.C.Valid() && |s.d| == s.C.rows && |xRaw| == s.C.cols && |P| == s.C.cols
              && (forall j :: 0 <= j < |xRaw| && P[j] ==> xRaw[j] > 0.0)
              && (forall j :: 0 <= j < |xRaw| && !P[j] ==> Multipliers(s.C, s.d, xRaw)[j] <= DefaultTolerance(s.C))
    ensures r.Profile? ==> NonNegative(r.x) && forall j :: 0 <= j < |r.x| ==> r.x[j] == 0.0 || r.x[j] >= 0.01
  {
    r, exit, xRaw, s, P := MinDivLP(ASmall, ALarge, ySmall, yLarge, lambda, q, DefaultThreshold, pow, lsq);
  }

  /**
   * With an all-zero y_small the target d is zero, so every multiplier at
   * the origin is 0 and none exceeds the default tolerance: the solver stops
   * before its first move.
   */
  lemma DegenerateSystemIsStationary(f: seq<real>, ASmall: Matrix, lambda: real, ySmall: seq<real>)
    requires ASmall.Valid() && |f| == ASmall.cols && |ySmall| == ASmall.rows
    requires forall i :: 0 <= i < |ySmall| ==> ySmall[i] == 0.0
    ensures !Improvable(Multipliers(Stack(f, ASmall, lambda, ySmall).C, Stack(f, ASmall, lambda, ySmall).d,
                                    Zeros(ASmall.cols)),
                        seq(ASmall.cols, _ => true),
                        ResolveTolerance(DefaultTolSentinel, Stack(f, ASmall, lambda, ySmall).C))
  {
    var s := Stack(f, ASmall, lambda, ySmall);
    assert s.d == Zeros(s.C.rows);
    MatVecZeros(s.C);
    assert Residual(s.C, s.d, Zeros(s.C.cols)) == Zeros(s.C.rows);
    TransposeVecZeros(s.C);
  }
}

=== FILE: nnls.dfy ===
/**
 * `sparse_nnls`: the Lawson–Hanson active-set loop for
 *   minimise ||C x - d||  subject to  x >= 0.
 *
 * The state is the passive mask P (columns free to be positive), the active
 * mask Z (columns held at zero) and the primal vector x. An outer round moves
 * the active column with the largest multiplier into P and solves the
 * unconstrained least-squares problem on the passive columns; an inner loop
 * steps x toward that solution as far as non-negativity allows and returns
 * the columns it drives to (near) zero to Z. One iteration budget, shared by
 * all inner loops, cuts the run short.
 *
 * The least-squares routine is a parameter: the model relies on nothing about
 * its answer except where that answer is written (the passive columns).
 */
module Nnls {
  import opened Floats
  import opened Vectors
  import opened Masks
  import opened Matrices

  /** The spacing of doubles just above 1, 2^-52. */
  const MachineEpsilon: real := 1.0 / 4503599627370496.0

  /** The `tol` value that asks for the default tolerance. */
  const DefaultTolSentinel: real := -1.0

  /** The default `itmax_factor`. */
  const DefaultItmaxFactor: nat := 3

  /** How a run ended: by the optimality test, or by the iteration budget. */
  datatype Exit = Converged | IterationCountExceeded

  /**
   * The least-squares routine (`lsqr(A, b)[0]`): for the passive columns of C
   * and the target d, one value per column.
   */
  type LeastSquares = (Matrix, seq<real>) -> seq<real>

  /**
   * The primal iterate of the inner loop. It is finite until a step length of
   * `0/0` is taken: from then on every entry is NaN.
   */
  datatype Primal = Finite(v: seq<real>) | NotANumber

  function Max(a: nat, b: nat): nat
  {
    if a < b then b else a
  }

  /** `10 * eps * (max(C.shape) + 1)`: the factor applied to `norm(C, 1)`. */
  function ToleranceFactor(C: Matrix): (f: real)
    ensures f > 0.0
  {
    10.0 * MachineEpsilon * (Max(C.rows, C.cols) + 1) as real
  }

  /** `t` is at least f times every absolute column sum of C. */
  predicate BoundsColumns(C: Matrix, f: real, t: real)
    requires C.Valid()
  {
    forall j :: 0 <= j < C.cols ==> f * AbsColumnSum(C, j) <= t
  }

  /** `t` is f times some absolute column sum of C. */
  predicate MeetsColumn(C: Matrix, f: real, t: real)
    requires C.Valid()
  {
    exists j :: 0 <= j < C.cols && f * AbsColumnSum(C, j) == t
  }

  /** A non-negative multiple of `norm(C, 1)` bounds, and meets, the same multiple of each column sum. */
  lemma ScaledNormBounds(f: real, C: Matrix)
    requires f >= 0.0 && C.Valid()
    ensures f * Norm1(C) >= 0.0
    ensures BoundsColumns(C, f, f * Norm1(C))
    ensures C.cols > 0 ==> MeetsColumn(C, f, f * Norm1(C))
    ensures C.cols == 0 ==> f * Norm1(C) == 0.0
  {
    forall j | 0 <= j < C.cols
      ensures f * AbsColumnSum(C, j) <= f * Norm1(C)
    {
      assert AbsColumnSum(C, j) <= Norm1(C);
    }
    if C.cols > 0 {
      var j :| 0 <= j < C.cols && AbsColumnSum(C, j) == Norm1(C);
      assert f * AbsColumnSum(C, j) == f * Norm1(C);
    }
  }

  /** `f * norm(C, 1)` for a non-negative f. */
  function ScaledNorm(f: real, C: Matrix): (t: real)
    requires f >= 0.0 && C.Valid()
    ensures t >= 0.0
    ensures BoundsColumns(C, f, t)
    ensures C.cols > 0 ==> MeetsColumn(C, f, t)
    ensures C.cols == 0 ==> t == 0.0
  {
    ScaledNormBounds(f, C);
    f * Norm1(C)
  }

  /**
   * `10 * eps * norm(C, 1) * (max(C.shape) + 1)`: the same multiple of the
   * largest absolute column sum. With no columns at all the norm is taken
   * as 0.
   */
  function DefaultTolerance(C: Matrix): (tol: real)
    requires C.Valid()
    ensures tol >= 0.0
    ensures BoundsColumns(C, ToleranceFactor(C), tol)
    ensures C.cols > 0 ==> MeetsColumn(C, ToleranceFactor(C), tol)
    ensures C.cols == 0 ==> tol == 0.0
  {
    ScaledNorm(ToleranceFactor(C), C)
  }

  /** The tolerance in force: the caller's, unless it is the sentinel -1. */
  function ResolveTolerance(tol: real, C: Matrix): (r: real)
    requires C.Valid()
    ensures tol != DefaultTolSentinel ==> r == tol
    ensures tol == DefaultTolSentinel ==> r >= 0.0
  {
    if tol == DefaultTolSentinel then DefaultTolerance(C) else tol
  }

  /** `any(Z) and any(w[Z] > tol)`: some active column still has a multiplier above tol. */
  predicate Improvable(w: seq<real>, Z: seq<bool>, tol: real)
    requires |w| == |Z|
  {
    exists j :: 0 <= j < |Z| && Z[j] && w[j] > tol
  }

  /**
   * `wz[P] = -inf; wz[Z] = w[Z]`: the active multipliers, with every passive
   * column ranked below every active one.
   */
  function Masked(w: seq<real>, Z: seq<bool>): (wz: seq<Ext>)
    requires |w| == |Z|
    ensures |wz| == |w|
    ensures forall j :: 0 <= j < |wz| ==> !wz[j].NaN?
    ensures forall j :: 0 <= j < |wz| && Z[j] ==> wz[j] == Fin(w[j])
    ensures forall j, k :: 0 <= j < |wz| && 0 <= k < |wz| && Z[j] && !Z[k] ==> Less(wz[k], wz[j])
  {
    seq(|w|, j requires 0 <= j < |w| => if Z[j] then Fin(w[j]) else NegInf)
  }

  /**
   * `t = argmax(wz)`: the active column with the largest multiplier, the
   * lowest-numbered one on a tie.
   */
  method EnteringIndex(w: seq<real>, Z: seq<bool>) returns (t: nat)
    requires |w| == |Z|
    requires exists j :: 0 <= j < |Z| && Z[j]
    ensures t < |Z| && Z[t]
    ensures forall j :: 0 <= j < |Z| && Z[j] ==> w[j] <= w[t]
    ensures forall j :: 0 <= j < t && Z[j] ==> w[j] < w[t]
  {
    var wz := Masked(w, Z);
    t := Argmax(wz);
    var j :| 0 <= j < |Z| && Z[j];
    assert !Less(wz[t], wz[j]);
    forall k | 0 <= k < |Z| && Z[k]
      ensures w[k] <= w[t]
    {
      assert !Less(wz[t], wz[k]);
    }
    forall k | 0 <= k < t && Z[k]
      ensures w[k] < w[t]
    {
      assert Less(wz[k], wz[t]);
    }
  }

  /**
   * `z = zeros(n); z[P] = lsqr(C[:, cols(P)], d)[0]`: the least-squares
   * answer on the passive columns, zero on every other column.
   */
  function SubSolve(lsq: LeastSquares, C: Matrix, d: seq<real>, P: seq<bool>): (z: seq<real>)
    requires C.Valid() && |P| == C.cols
    ensures |z| == C.cols
    ensures forall j :: 0 <= j < |z| && !P[j] ==> z[j] == 0.0
  {
    Scatter(P, lsq(SelectColumns(C, TrueIndices(P)), d))
  }

  /** Passive column `TrueIndices(P)[k]` receives the routine's k-th value. */
  lemma SubSolveUsesOracle(lsq: LeastSquares, C: Matrix, d: seq<real>, P: seq<bool>, k: nat)
    requires C.Valid() && |P| == C.cols
    requires k < Count(P) && k < |lsq(SelectColumns(C, TrueIndices(P)), d)|
    ensures TrueIndices(P)[k] < |P| && P[TrueIndices(P)[k]]
    ensures SubSolve(lsq, C, d, P)[TrueIndices(P)[k]] == lsq(SelectColumns(C, TrueIndices(P)), d)[k]
  {
    ScatterFillsInOrder(P, lsq(SelectColumns(C, TrueIndices(P)), d), k);
  }

  /** `any(z[P] <= 0)`: the inner loop's guard. */
  predicate HasNonPositive(z: seq<real>, P: seq<bool>)
    requires |z| == |P|
  {
    exists j :: 0 <= j < |P| && P[j] && z[j] <= 0.0
  }

  /** `Q = (z <= 0) & P` */
  function BlockingMask(z: seq<real>, P: seq<bool>): seq<bool>
    requires |z| == |P|
  {
    seq(|z|, j requires 0 <= j < |z| => z[j] <= 0.0 && P[j])
  }

  /** The lowest-numbered passive column whose least-squares value is not positive. */
  function FirstBlocking(z: seq<real>, P: seq<bool>): (j: nat)
    requires |z| == |P| && HasNonPositive(z, P)
    ensures j < |P| && P[j] && z[j] <= 0.0
    ensures forall i :: 0 <= i < j && P[i] ==> z[i] > 0.0
  {
    var m := BlockingMask(z, P);
    var w :| 0 <= w < |P| && P[w] && z[w] <= 0.0;
    assert m[w];
    var Q := TrueIndices(m);
    assert forall i :: 0 <= i < Q[0] && P[i] ==> z[i] > 0.0 by {
      forall i | 0 <= i < Q[0] && P[i]
        ensures z[i] > 0.0
      {
        assert m[i] == (z[i] <= 0.0);
        assert m[i] ==> i in Q;
      }
    }
    Q[0]
  }

  /**
   * The float quotient `x_j / (x_j - z_j)` for x_j >= 0 >= z_j. Its
   * denominator vanishes only when x_j = z_j = 0, and then it is NaN.
   */
  function Ratio(xj: real, zj: real): Ext
    requires xj >= 0.0 && zj <= 0.0
  {
    if xj - zj == 0.0 then NaN else Fin(xj / (xj - zj))
  }

  /** The entry `a + t * (b - a)` of `x + t * (z - x)`. */
  function Moved(a: real, b: real, t: real): real
  {
    a + t * (b - a)
  }

  lemma RatioFacts(a: real, b: real)
    requires a >= 0.0 && b <= 0.0 && a - b != 0.0
    ensures 0.0 <= a / (a - b) <= 1.0
    ensures Moved(a, b, a / (a - b)) == 0.0
  {
    var q := a / (a - b);
    assert q * (a - b) == a;
  }

  /** A step no longer than a column's own ratio keeps that column non-negative. */
  lemma BlockedStep(a: real, b: real, t: real)
    requires a >= 0.0 && b <= 0.0 && 0.0 <= t
    requires Ratio(a, b).Fin? ==> t <= Ratio(a, b).v
    ensures Moved(a, b, t) >= 0.0
  {
    if a - b != 0.0 {
      var q := a / (a - b);
      assert q * (a - b) == a;
      assert t * (a - b) <= q * (a - b);
    }
  }

  /**
   * `alpha = min(x[Q] / (x[Q] - z[Q]))` with `min` the Python built-in, for a
   * non-negative x and the blocking columns Q, listed ascending.
   */
  function StepLength(x: seq<real>, z: seq<real>, Q: seq<nat>): (alpha: Ext)
    requires |x| == |z| && NonNegative(x) && |Q| > 0
    requires forall k :: 0 <= k < |Q| ==> Q[k] < |z| && z[Q[k]] <= 0.0
    ensures !alpha.NegInf?
    ensures alpha.NaN? <==> x[Q[0]] == 0.0 && z[Q[0]] == 0.0
    ensures alpha.Fin? ==> 0.0 <= alpha.v <= 1.0
    ensures alpha.Fin? ==> forall k :: 0 <= k < |Q| ==> Moved(x[Q[k]], z[Q[k]], alpha.v) >= 0.0
    ensures alpha.Fin? ==> exists k :: 0 <= k < |Q| && Moved(x[Q[k]], z[Q[k]], alpha.v) == 0.0
    ensures alpha.Fin? ==> exists k :: 0 <= k < |Q| && Ratio(x[Q[k]], z[Q[k]]) == alpha
    ensures alpha.Fin? ==> forall k :: 0 <= k < |Q| && Ratio(x[Q[k]], z[Q[k]]).Fin? ==>
              alpha.v <= Ratio(x[Q[k]], z[Q[k]]).v
  {
    var ratios := seq(|Q|, k requires 0 <= k < |Q| => Ratio(x[Q[k]], z[Q[k]]));
    var alpha := BuiltinMin(ratios);
    StepLengthFacts(x, z, Q, ratios, alpha);
    alpha
  }

  lemma StepLengthFacts(x: seq<real>, z: seq<real>, Q: seq<nat>, ratios: seq<Ext>, alpha: Ext)
    requires |x| == |z| && NonNegative(x) && |Q| > 0
    requires forall k :: 0 <= k < |Q| ==> Q[k] < |z| && z[Q[k]] <= 0.0
    requires |ratios| == |Q|
    requires forall k :: 0 <= k < |Q| ==> ratios[k] == Ratio(x[Q[k]], z[Q[k]])
    requires alpha == BuiltinMin(ratios)
    ensures !alpha.NegInf?
    ensures alpha.NaN? <==> x[Q[0]] == 0.0 && z[Q[0]] == 0.0
    ensures alpha.Fin? ==> 0.0 <= alpha.v <= 1.0
    ensures alpha.Fin? ==> forall k :: 0 <= k < |Q| ==> Moved(x[Q[k]], z[Q[k]], alpha.v) >= 0.0
    ensures alpha.Fin? ==> exists k :: 0 <= k < |Q| && Moved(x[Q[k]], z[Q[k]], alpha.v) == 0.0
    ensures alpha.Fin? ==> exists k :: 0 <= k < |Q| && Ratio(x[Q[k]], z[Q[k]]) == alpha
    ensures alpha.Fin? ==> forall k :: 0 <= k < |Q| && Ratio(x[Q[k]], z[Q[k]]).Fin? ==>
              alpha.v <= Ratio(x[Q[k]], z[Q[k]]).v
  {
    assert forall k :: 0 <= k < |Q| ==> !ratios[k].NegInf?;
    if !ratios[0].NaN? {
      assert ratios[0].Fin?;
      var k :| 0 <= k < |Q| && ratios[k] == alpha;
      RatioFacts(x[Q[k]], z[Q[k]]);
      forall l | 0 <= l < |Q|
        ensures Moved(x[Q[l]], z[Q[l]], alpha.v) >= 0.0
      {
        BlockedStep(x[Q[l]], z[Q[l]], alpha.v);
      }
    }
  }

  /** `x + alpha * (z - x)` */
  function Toward(x: seq<real>, z: seq<real>, alpha: real): seq<real>
    requires |x| == |z|
  {
    seq(|x|, j requires 0 <= j < |x| => Moved(x[j], z[j], alpha))
  }

  lemma ConvexNonNegative(a: real, b: real, t: real)
    requires a >= 0.0 && b >= 0.0 && 0.0 <= t <= 1.0
    ensures Moved(a, b, t) >= 0.0
  {
    assert Moved(a, b, t) == (1.0 - t) * a + t * b;
    assert (1.0 - t) * a >= 0.0;
    assert t * b >= 0.0;
  }

  /**
   * One inner step: Q, alpha and `x = x + alpha * (z - x)`. While x is
   * finite and non-negative, and z is zero off P, the step keeps x
   * non-negative and drives some blocking column to exactly 0 — unless
   * alpha is NaN, which happens exactly when the lowest blocking column has
   * x_j = z_j = 0 (`0/0`), and which then poisons every entry of x.
   */
  function Step(x: Primal, z: seq<real>, P: seq<bool>): (r: Primal)
    requires |z| == |P| && (x.Finite? ==> |x.v| == |z| && NonNegative(x.v))
    requires forall j :: 0 <= j < |z| && !P[j] ==> z[j] == 0.0
    requires HasNonPositive(z, P)
    ensures r.Finite? ==> |r.v| == |z| && NonNegative(r.v)
    ensures r.Finite? ==> exists j :: 0 <= j < |P| && P[j] && z[j] <= 0.0 && r.v[j] == 0.0
    ensures r.NotANumber? <==>
              x.NotANumber? || (x.v[FirstBlocking(z, P)] == 0.0 && z[FirstBlocking(z, P)] == 0.0)
    ensures r.Finite? ==>
              x.Finite? && exists a: real :: LongestStep(x.v, z, P, a) && r.v == Toward(x.v, z, a)
  {
    if x.NotANumber? then NotANumber
    else
      var Q := TrueIndices(BlockingMask(z, P));
      var w := FirstBlocking(z, P);
      assert BlockingMask(z, P)[w] && w in Q;
      var alpha := StepLength(x.v, z, Q);
      if alpha.NaN? then NotANumber
      else
        var y := Toward(x.v, z, alpha.v);
        StepFacts(x.v, z, P, Q, alpha.v);
        StepIsLongest(x.v, z, P, Q, alpha.v);
        Finite(y)
  }

  /**
   * `a` is the longest step toward z that keeps x non-negative: it is the
   * ratio of some blocking column (passive, `z_j <= 0`) and no longer than
   * any finite ratio of another.
   */
  predicate LongestStep(x: seq<real>, z: seq<real>, P: seq<bool>, a: real)
    requires |x| == |z| == |P| && NonNegative(x)
  {
    && 0.0 <= a <= 1.0
    && (exists j :: 0 <= j < |P| && P[j] && z[j] <= 0.0 && Ratio(x[j], z[j]) == Fin(a))
    && (forall j :: 0 <= j < |P| && P[j] && z[j] <= 0.0 && Ratio(x[j], z[j]).Fin? ==>
          a <= Ratio(x[j], z[j]).v)
  }

  /** A finite `min` over the blocking columns' ratios is the longest step. */
  lemma StepIsLongest(x: seq<real>, z: seq<real>, P: seq<bool>, Q: seq<nat>, alpha: real)
    requires |z| == |P| && |x| == |z| && NonNegative(x)
    requires Q == TrueIndices(BlockingMask(z, P)) && |Q| > 0
    requires StepLength(x, z, Q) == Fin(alpha)
    ensures LongestStep(x, z, P, alpha)
  {
    var m := BlockingMask(z, P);
    var k :| 0 <= k < |Q| && Ratio(x[Q[k]], z[Q[k]]) == Fin(alpha);
    assert m[Q[k]];
    forall j | 0 <= j < |P| && P[j] && z[j] <= 0.0 && Ratio(x[j], z[j]).Fin?
      ensures alpha <= Ratio(x[j], z[j]).v
    {
      assert m[j] && j in Q;
      var l :| 0 <= l < |Q| && Q[l] == j;
    }
  }

  lemma StepFacts(x: seq<real>, z: seq<real>, P: seq<bool>, Q: seq<nat>, alpha: real)
    requires |z| == |P| && |x| == |z| && NonNegative(x)
    requires forall j :: 0 <= j < |z| && !P[j] ==> z[j] == 0.0
    requires HasNonPositive(z, P)
    requires Q == TrueIndices(BlockingMask(z, P)) && |Q| > 0
    requires StepLength(x, z, Q) == Fin(alpha)
    ensures NonNegative(Toward(x, z, alpha))
    ensures exists j :: 0 <= j < |P| && P[j] && z[j] <= 0.0 && Toward(x, z, alpha)[j] == 0.0
  {
    var m := BlockingMask(z, P);
    var y := Toward(x, z, alpha);
    forall j | 0 <= j < |y|
      ensures y[j] >= 0.0
    {
      if m[j] {
        assert j in Q;
        var k :| 0 <= k < |Q| && Q[k] == j;
        assert Moved(x[j], z[j], alpha) >= 0.0;
      } else {
        ConvexNonNegative(x[j], z[j], alpha);
      }
    }
    var k :| 0 <= k < |Q| && Moved(x[Q[k]], z[Q[k]], alpha) == 0.0;
    assert m[Q[k]];
  }

  /**
   * The re-split `Z = ((abs(x) < tol) & P) | Z`. A NaN entry is never below
   * tol, so a poisoned x moves nothing.
   */
  function Resplit(x: Primal, P: seq<bool>, Z: seq<bool>, tol: real): (Z': seq<bool>)
    requires |P| == |Z| && (x.Finite? ==> |x.v| == |P|)
    ensures Within(Z, Z')
    ensures Partition(P, Z) ==> Within(Not(Z'), P)
    ensures x.NotANumber? ==> Z' == Z
    ensures forall j :: 0 <= j < |Z| && Z'[j] && !Z[j] ==> P[j] && x.Finite? && Abs(x.v[j]) < tol
    ensures x.Finite? ==> forall j :: 0 <= j < |Z| && P[j] && Abs(x.v[j]) < tol ==> Z'[j]
  {
    seq(|Z|, j requires 0 <= j < |Z| => Z[j] || (P[j] && x.Finite? && Abs(x.v[j]) < tol))
  }

  /**
   * With a positive tolerance, every finite inner step returns at least one
   * passive column to Z and none the other way, so |P| strictly drops; a NaN
   * step leaves both masks as they were.
   */
  lemma InnerStepShrinksPassive(x: Primal, z: seq<real>, P: seq<bool>, Z: seq<bool>, tol: real)
    requires Partition(P, Z) && |z| == |P|
    requires x.Finite? ==> |x.v| == |z| && NonNegative(x.v)
    requires forall j :: 0 <= j < |z| && !P[j] ==> z[j] == 0.0
    requires HasNonPositive(z, P)
    ensures Within(Z, Resplit(Step(x, z, P), P, Z, tol))
    ensures Within(Not(Resplit(Step(x, z, P), P, Z, tol)), P)
    ensures Step(x, z, P).NotANumber? ==> Resplit(Step(x, z, P), P, Z, tol) == Z
    ensures Step(x, z, P).Finite? && tol > 0.0 ==>
              Count(Not(Resplit(Step(x, z, P), P, Z, tol))) < Count(P)
  {
    var y := Step(x, z, P);
    var Z' := Resplit(y, P, Z, tol);
    var P' := Not(Z');
    assert Within(P', P);
    if y.Finite? && tol > 0.0 {
      var j :| 0 <= j < |P| && P[j] && z[j] <= 0.0 && y.v[j] == 0.0;
      assert Z'[j];
      CountShrinks(P, P', j);
    }
  }

  /**
   * After a `0/0` step nothing moves: the re-split keeps P, the re-solve
   * returns the same z, and the inner loop's guard still holds. From there
   * only the iteration budget ends the inner loop.
   */
  lemma PoisonedStepRepeats(lsq: LeastSquares, C: Matrix, d: seq<real>, x: Primal,
                            P: seq<bool>, Z: seq<bool>, tol: real)
    requires C.Valid() && |d| == C.rows && |P| == C.cols && Partition(P, Z)
    requires x.Finite? ==> |x.v| == C.cols && NonNegative(x.v)
    requires HasNonPositive(SubSolve(lsq, C, d, P), P)
    requires Step(x, SubSolve(lsq, C, d, P), P).NotANumber?
    ensures Not(Resplit(Step(x, SubSolve(lsq, C, d, P), P), P, Z, tol)) == P
    ensures SubSolve(lsq, C, d, Not(Resplit(Step(x, SubSolve(lsq, C, d, P), P), P, Z, tol))) == SubSolve(lsq, C, d, P)
    ensures HasNonPositive(SubSolve(lsq, C, d, P), Not(Resplit(Step(x, SubSolve(lsq, C, d, P), P), P, Z, tol)))
  {
    var z := SubSolve(lsq, C, d, P);
    InnerStepShrinksPassive(x, z, P, Z, tol);
    assert Resplit(Step(x, z, P), P, Z, tol) == Z;
    assert Not(Z) == P;
  }

  /**
   * The inner loop, `while any(z[P] <= 0)`, entered with the passive set P0
   * just grown and z0 solved on it, and with the shared counter at i0. It
   * stops either because every passive value of z is positive, or because
   * the counter passed itmax; the masks only ever lose passive columns.
   */
  method RestoreFeasibility(lsq: LeastSquares, C: Matrix, d: seq<real>, tol: real, itmax: nat,
                            x0: seq<real>, P0: seq<bool>, Z0: seq<bool>, z0: seq<real>, i0: nat)
    returns (z: seq<real>, P: seq<bool>, Z: seq<bool>, i: nat, exceeded: bool)
    requires C.Valid() && |d| == C.rows
    requires |x0| == C.cols && NonNegative(x0)
    requires |P0| == C.cols && Partition(P0, Z0)
    requires z0 == SubSolve(lsq, C, d, P0)
    requires i0 <= itmax
    ensures |P| == C.cols && Partition(P, Z) && Within(P, P0)
    ensures z == SubSolve(lsq, C, d, P)
    ensures i0 <= i <= itmax + 1
    ensures exceeded <==> i == itmax + 1
    ensures exceeded ==> HasNonPositive(z, P)
    ensures !exceeded ==> forall j :: 0 <= j < |P| && P[j] ==> z[j] > 0.0
    ensures i == i0 ==> P == P0 && Z == Z0
  {
    var x := Finite(x0);
    z, P, Z, i := z0, P0, Z0, i0;
    while HasNonPositive(z, P)
      invariant |P| == C.cols && Partition(P, Z) && Within(P, P0)
      invariant z == SubSolve(lsq, C, d, P)
      invariant x.Finite? ==> |x.v| == C.cols && NonNegative(x.v)
      invariant i0 <= i <= itmax
      invariant i == i0 ==> P == P0 && Z == Z0
      decreases itmax - i
    {
      i := i + 1;
      if i > itmax {
        exceeded := true;
        return;
      }
      x := Step(x, z, P);
      Z := Resplit(x, P, Z, tol);
      P := Not(Z);
      z := SubSolve(lsq, C, d, P);
    }
    exceeded := false;
  }

  /**
   * `sparse_nnls(C, d, tol, itmax_factor)`, returning the result x with the
   * final masks, the last multipliers and the inner-iteration count. The
   * model states what holds on each way out. On every one, x is the
   * least-squares routine's answer on the final passive columns (`x = z`),
   * which is the zero vector when no round runs.
   *  - normal return: no active multiplier exceeds tol, every passive entry
   *    of x is positive and every active one is 0 (x is feasible);
   *  - budget exhausted: the inner loop ran itmax + 1 times and x is the last
   *    unconstrained least-squares answer, which has a non-positive entry on
   *    some passive column.
   */
  method SparseNnls(C: Matrix, d: seq<real>, tol: real, itmaxFactor: nat, lsq: LeastSquares)
    returns (x: seq<real>, exit: Exit, P: seq<bool>, Z: seq<bool>, w: seq<real>, steps: nat)
    requires C.Valid() && |d| == C.rows
    ensures |x| == C.cols && |P| == C.cols && Partition(P, Z)
    ensures |P| == C.cols && x == SubSolve(lsq, C, d, P)
    ensures steps <= itmaxFactor * C.cols + 1
    ensures exit == IterationCountExceeded <==> steps == itmaxFactor * C.cols + 1
    ensures exit == Converged ==>
              && |x| == C.cols && w == Multipliers(C, d, x)
              && forall j :: 0 <= j < |Z| && j < |w| && Z[j] ==> w[j] <= ResolveTolerance(tol, C)
    ensures exit == Converged ==>
              forall j :: 0 <= j < |x| && j < |P| && j < |Z| ==> (P[j] ==> x[j] > 0.0) && (Z[j] ==> x[j] == 0.0)
    ensures exit == IterationCountExceeded ==>
              |P| == C.cols && x == SubSolve(lsq, C, d, P) && HasNonPositive(x, P)
    ensures !Improvable(Multipliers(C, d, Zeros(C.cols)), seq(C.cols, _ => true), ResolveTolerance(tol, C)) ==>
              exit == Converged && x == Zeros(C.cols)
  {
    var n := C.cols;
    var eps := ResolveTolerance(tol, C);
    var itmax := itmaxFactor * n;
    P := seq(n, _ => false);
    Z := seq(n, _ => true);
    x := Zeros(n);
    w := Multipliers(C, d, x);
    steps := 0;
    assert x == SubSolve(lsq, C, d, P);
    ghost var w0, Z0 := w, Z;
    while Improvable(w, Z, eps)
      invariant |x| == n && |P| == n && Partition(P, Z)
      invariant x == SubSolve(lsq, C, d, P)
      invariant forall j :: 0 <= j < n ==> (P[j] ==> x[j] > 0.0) && (Z[j] ==> x[j] == 0.0)
      invariant w == Multipliers(C, d, x)
      invariant steps <= itmax
      invariant !Improvable(w0, Z0, eps) ==> x == Zeros(n) && w == w0 && Z == Z0
      decreases itmax - steps, Count(Z)
    {
      var t := EnteringIndex(w, Z);
      ghost var Zbefore := Z;
      P := P[t := true];
      Z := Z[t := false];
      CountShrinks(Zbefore, Z, t);
      var z := SubSolve(lsq, C, d, P);
      var stepsBefore := steps;
      var exceeded;
      z, P, Z, steps, exceeded := RestoreFeasibility(lsq, C, d, eps, itmax, x, P, Z, z, steps);
      x := z;
      if exceeded {
        exit := IterationCountExceeded;
        return;
      }
      w := Multipliers(C, d, x);
    }
    exit := Converged;
  }
}

=== FILE: vectors.dfy ===
/**
 * Dense real vectors and the few identities about sums and dot products that
 * the formulator's facts rest on. Sums run left to right, as Python's `sum`.
 */
module Vectors {

  /** `sum(v)`, accumulated from the front. */
  function Sum(v: seq<real>): real
  {
    SumTo(v, |v|)
  }

  /** The sum of the first `n` entries. */
  function SumTo(v: seq<real>, n: nat): real
    requires n <= |v|
  {
    if n == 0 then 0.0 else SumTo(v, n - 1) + v[n - 1]
  }

  /** Partial sums see only the entries they cover. */
  lemma {:induction false} SumToAgree(v: seq<real>, w: seq<real>, n: nat)
    requires n <= |v| && n <= |w|
    requires forall i :: 0 <= i < n ==> v[i] == w[i]
    ensures SumTo(v, n) == SumTo(w, n)
  {
    if n > 0 {
      SumToAgree(v, w, n - 1);
    }
  }

  /** The last entry splits off a non-empty sum. */
  lemma SumLast(v: seq<real>)
    requires |v| > 0
    ensures Sum(v) == Sum(v[..|v| - 1]) + v[|v| - 1]
  {
    SumToAgree(v, v[..|v| - 1], |v| - 1);
  }

  function Dot(a: seq<real>, b: seq<real>): real
    requires |a| == |b|
  {
    if |a| == 0 then 0.0 else Dot(a[..|a| - 1], b[..|b| - 1]) + a[|a| - 1] * b[|b| - 1]
  }

  /** The squared Euclidean norm. */
  function SumSq(v: seq<real>): real
  {
    Dot(v, v)
  }

  function Zeros(n: nat): seq<real>
  {
    seq(n, _ => 0.0)
  }

  function Scale(c: real, v: seq<real>): seq<real>
  {
    seq(|v|, j requires 0 <= j < |v| => c * v[j])
  }

  function Sub(a: seq<real>, b: seq<real>): seq<real>
    requires |a| == |b|
  {
    seq(|a|, j requires 0 <= j < |a| => a[j] - b[j])
  }

  function Abs(r: real): real
  {
    if r < 0.0 then -r else r
  }

  predicate NonNegative(v: seq<real>)
  {
    forall j :: 0 <= j < |v| ==> v[j] >= 0.0
  }

  lemma ScalePrefix(c: real, v: seq<real>, n: nat)
    requires n <= |v|
    ensures Scale(c, v)[..n] == Scale(c, v[..n])
  {
    assert forall j :: 0 <= j < n ==> Scale(c, v)[..n][j] == c * v[j] == Scale(c, v[..n])[j];
  }

  lemma {:induction false} SumScale(c: real, v: seq<real>)
    ensures Sum(Scale(c, v)) == c * Sum(v)
  {
    if |v| > 0 {
      var u := v[..|v| - 1];
      ScalePrefix(c, v, |v| - 1);
      SumScale(c, u);
      SumLast(v);
      SumLast(Scale(c, v));
    }
  }

  lemma {:induction false} SumNonNegative(v: seq<real>)
    requires NonNegative(v)
    ensures Sum(v) >= 0.0
  {
    if |v| > 0 {
      SumNonNegative(v[..|v| - 1]);
      SumLast(v);
    }
  }

  /** Lowering entries one by one lowers the sum. */
  lemma {:induction false} SumMonotone(a: seq<real>, b: seq<real>)
    requires |a| == |b|
    requires forall j :: 0 <= j < |a| ==> a[j] <= b[j]
    ensures Sum(a) <= Sum(b)
  {
    if |a| > 0 {
      SumMonotone(a[..|a| - 1], b[..|b| - 1]);
      SumLast(a);
      SumLast(b);
    }
  }

  lemma {:induction false} DotScale(c: real, a: seq<real>, b: seq<real>)
    requires |a| == |b|
    ensures Dot(Scale(c, a), b) == c * Dot(a, b)
  {
    if |a| > 0 {
      var a', b' := a[..|a| - 1], b[..|b| - 1];
      ScalePrefix(c, a, |a| - 1);
      DotScale(c, a', b');
    }
  }

  lemma {:induction false} DotZeros(a: seq<real>)
    ensures Dot(a, Zeros(|a|)) == 0.0
  {
    if |a| > 0 {
      assert Zeros(|a|)[..|a| - 1] == Zeros(|a| - 1);
      DotZeros(a[..|a| - 1]);
    }
  }

  /** The squared norm of `[a] + v` splits off the head. */
  lemma {:induction false} SumSqCons(a: real, v: seq<real>)
    ensures SumSq([a] + v) == a * a + SumSq(v)
    decreases |v|
  {
    if |v| > 0 {
      var v' := v[..|v| - 1];
      assert ([a] + v)[..|v|] == [a] + v';
      SumSqCons(a, v');
    }
  }

  lemma {:induction false} SumSqScale(c: real, v: seq<real>)
    ensures SumSq(Scale(c, v)) == c * c * SumSq(v)
  {
    if |v| > 0 {
      var v' := v[..|v| - 1];
      ScalePrefix(c, v, |v| - 1);
      SumSqScale(c, v');
      var x := v[|v| - 1];
      assert (c * x) * (c * x) == c * c * (x * x);
    }
  }

  lemma {:induction false} SumZeros(n: nat)
    ensures Sum(Zeros(n)) == 0.0
  {
    if n > 0 {
      assert Zeros(n)[..n - 1] == Zeros(n - 1);
      SumZeros(n - 1);
      SumLast(Zeros(n));
    }
  }

  /** A vector of 0s and 1s, such as a boolean column read as numbers. */
  predicate IsIndicator(u: seq<real>)
  {
    forall i :: 0 <= i < |u| ==> u[i] == 0.0 || u[i] == 1.0
  }

  /**
   * Against a non-negative y, a 0/1 vector picks out part of y's mass: at
   * least each picked entry, at most all of it, and nothing if it picks none.
   */
  lemma {:induction false} IndicatorDotBounds(u: seq<real>, y: seq<real>)
    requires |u| == |y| && IsIndicator(u) && NonNegative(y)
    ensures 0.0 <= Dot(u, y) <= Sum(y)
    ensures forall i :: 0 <= i < |u| && u[i] == 1.0 ==> y[i] <= Dot(u, y)
    ensures (forall i :: 0 <= i < |u| ==> u[i] == 0.0) ==> Dot(u, y) == 0.0
  {
    if |u| > 0 {
      var n := |u| - 1;
      IndicatorDotBounds(u[..n], y[..n]);
      SumLast(y);
      assert 0.0 <= u[n] * y[n] <= y[n];
    }
  }

  /** Raising entry j of x by t raises `a · x` by `t * a[j]`. */
  lemma {:induction false} DotNudge(a: seq<real>, x: seq<real>, j: nat, t: real)
    requires |a| == |x| && j < |x|
    ensures Dot(a, x[j := x[j] + t]) == Dot(a, x) + t * a[j]
  {
    var n := |a| - 1;
    var x' := x[j := x[j] + t];
    if j == n {
      assert x'[..n] == x[..n];
      assert a[n] * (x[n] + t) == a[n] * x[n] + t * a[n];
    } else {
      assert x'[..n] == x[..n][j := x[j] + t];
      DotNudge(a[..n], x[..n], j, t);
    }
  }

  /** `||r - t c||² = ||r||² - 2 t (c · r) + t² ||c||²` */
  lemma SumSqShift(r: seq<real>, c: seq<real>, t: real)
    requires |r| == |c|
    ensures SumSq(Sub(r, Scale(t, c))) == SumSq(r) - 2.0 * t * Dot(c, r) + t * t * SumSq(c)
  {
    SumSqSub(Sub(r, Scale(t, c)), r, Scale(t, c));
    DotScale(t, c, r);
    SumSqScale(t, c);
  }

  /** `||r - u||² = ||r||² - 2 (u · r) + ||u||²`, for any s that is `r - u` entry by entry. */
  lemma {:induction false} SumSqSub(s: seq<real>, r: seq<real>, u: seq<real>)
    requires |s| == |r| == |u|
    requires forall i :: 0 <= i < |s| ==> s[i] == r[i] - u[i]
    ensures SumSq(s) == SumSq(r) - 2.0 * Dot(u, r) + SumSq(u)
  {
    if |s| > 0 {
      var n := |s| - 1;
      SumSqSub(s[..n], r[..n], u[..n]);
      assert s[n] * s[n] == r[n] * r[n] - 2.0 * (u[n] * r[n]) + u[n] * u[n];
    }
  }
}
